=== FILE: README.md ===
# ezprinting: print-job submission, modelled in Dafny

ezprinting submits print jobs to one of two backends behind one `PrintJob`
class. One backend is a CUPS spooler, reached through pycups. The other is
Google Cloud Print (GCP), reached over HTTP. This project models the decision
logic around those backend calls. Every backend answer is an input value.

- `values.dfy` (`Values`): the Python values the client handles (`None`,
  booleans, integers, strings, lists, dicts), Python truthiness, exceptions,
  and `v[key]` with its KeyError/TypeError behaviour.
- `print_server.dfy` (`PrintServers`): the `PrintServer` constructor and its
  `cups`/`gcp` factories. Also `open_connection` dispatch and the outcome
  mapping of `test_connection`. The constructor sets exactly one backend flag
  or raises.
- `printer.dfy` (`Printers`): the `Printer` constructor, the
  `check_printer_exists` rule per backend, and the GCP attribute URL.
- `print_job.dfy` (`PrintJobs`): the job states and defaults, the `PrintJob`
  constructor and its `new_cups`/`new_gcp` factories, and `print()`.
  `print()` is a pure transition from (job, backend answers, ticket
  serialiser) to (updated job, ordered backend calls, returned value or
  raised exception).
- `print_retries.dfy` (`PrintRetries`): a caller calling `print()` again on
  the same job. This shows what any number of attempts leads to on CUPS and
  on GCP.

The model follows the code as written, including two behaviours that look
unintended:

- A CUPS server built with a truthy password raises AttributeError. The
  constructor reads `self._cups_password`, which is never assigned. So every
  CUPS server that does get built holds the empty password.
- On GCP, any HTTP 200 answer sets `submitted`, even when the answer's
  `success` is false.

Three further behaviours of the code are easy to misread, and the model
keeps each one as written:

- A CUPS attempt whose `finishDocument` fails leaves the state as it was.
  For a job never printed before that state is DRAFT; a retry of a QUEUED
  job stays QUEUED.
- The state a successful GCP answer names is copied into the job unchecked.
  It need not be one of the seven known states (`GcpStateUnchecked`).
- On CUPS the `createJob` id is recorded before the document is finished,
  so a failed finish still leaves `job_id` set.

An exception does not undo the fields assigned before it. Take a GCP answer
with status 200 whose body is not JSON. The model leaves `submitted` true and
records the response before raising, as the Python object would.

## Model

| member | source | states |
|---|---|---|
| Values.Subscript | ezprinting/print_server.py:30-32 | indexing a dict returns the entry when the key is present; a missing key raises KeyError; indexing any non-dict raises TypeError |
| Values.Path | ezprinting/print_job.py:77-78 | an empty path returns the value; a one-key path is exactly that subscript, with its KeyError/TypeError; a non-empty path succeeds only if its first key is in a dict |
| Values.PathConcat | ezprinting/print_job.py:77-78 | following a path a+b is following a, then b from where a ended; an exception along a is the result |
| Values.PathThroughDicts | ezprinting/print_job.py:77-78 | extending a path that ends at a dict by one of its keys yields that entry, so `j["job"]["semanticState"]["state"]["type"]` reads each level in turn |
| PrintServers.Normalised | ezprinting/print_server.py:33 | a falsy credential (None, "") becomes ""; a truthy one is kept |
| PrintServers.NormalisedSettled | ezprinting/print_server.py:33-34 | a normalised credential is never None, is truthy iff the original was, and normalising it again changes nothing |
| PrintServers.New | ezprinting/print_server.py:23-39 | a built server has exactly one flag: is_cups iff type "CUPS", is_gcp iff type "GCP"; any other type raises ValueError("Invalid server_type."); CUPS succeeds iff the three parameters exist and the password is falsy; the user name is normalised and the password is ""; a truthy password raises AttributeError; GCP keeps the service account |
| PrintServers.Cups | ezprinting/print_server.py:41-48 | the factory builds a CUPS-only server from host, user and password; it succeeds iff the password is falsy; host defaults to "localhost:631" |
| PrintServers.Gcp | ezprinting/print_server.py:50-52 | the factory builds a GCP-only server that keeps the decoded service account and the name |
| PrintServers.OpenConnection | ezprinting/print_server.py:80-90 | with neither flag it raises RuntimeError("Server type error!"); with a flag it fails exactly when creating the backend connection fails, with that exception (for CUPS, the RuntimeError of `cups.Connection()`); a connection is a CUPS one iff is_cups |
| PrintServers.ConstructedServerOpens | ezprinting/print_server.py:80-90 | on a server the constructor returns, opening fails iff the backend connect fails, with its exception, so the "Server type error!" branch is never reached |
| PrintServers.TestConnection | ezprinting/print_server.py:54-78 | success is exactly: open_connection succeeded on CUPS, or the GCP search answered ok, or (with neither flag) the default; a successful result carries "Connection OK!"; a CUPS RuntimeError or any GCP exception gives (False, str(e)); a GCP answer that is not ok gives (False, reason); only a non-RuntimeError on CUPS propagates |
| PrintServers.ConstructedServerTest | ezprinting/print_server.py:54-78 | on a server the constructor returns, the answer depends only on its own backend: on CUPS it is OK iff open_connection succeeds, on GCP it never raises and is OK iff the search answered ok |
| Printers.NewPrinter | ezprinting/printer.py:12-14 | the printer keeps its server and takes name_or_id verbatim as its id |
| Printers.AttributesUrl | ezprinting/printer.py:42 | the URL is the base URI, then "/printer?printerid=", then the id |
| Printers.AttributesUrlRoundTrip | ezprinting/printer.py:42 | the id can be read back out of its attributes URL |
| Printers.AttributesUrlOnly | ezprinting/printer.py:42 | a URL that yields an id is exactly that id's attributes URL, so different ids give different URLs |
| Printers.EnableUrl | ezprinting/printer.py:53 | the enable URL is the base URI, then "/processinvite?accept=true&printerid=", then the id |
| Printers.EnableUrlIsNotAttributesUrl | ezprinting/printer.py:42-53 | no enable URL equals any attributes URL, so the two GETs can be told apart |
| Printers.CheckPrinterExists | ezprinting/printer.py:16-33 | with no connection passed it opens one, and a failed open raises before any lookup; with neither flag and a connection passed it answers None; on CUPS it makes one attribute request by the printer name and answers by the CUPS rule (an IPPError gives False, otherwise True iff printer-name equals the id); on GCP it answers exactly by the GCP rule; it makes no backend call only in those first two cases |
| Printers.CupsExists | ezprinting/printer.py:20-26 | an IPPError answers False; any other exception of the lookup is raised unchanged; a returned dict with printer-name answers True iff it equals the id; one without printer-name (or a non-dict) raises the subscript's KeyError/TypeError |
| Printers.GcpExists | ezprinting/printer.py:28-33 | the calls are a GET of the attributes URL, then possibly a GET of the enable URL, then possibly the attributes URL again; the enable GET is made iff the first success is falsy; with one GET the answer is the first success (or the lookup's exception); with two the enable GET raised and its exception is the answer; with three the enable GET returned and the answer is the second success |
| Printers.GcpEnablesAtMostOnce | ezprinting/printer.py:29-33 | a GCP check starts with a lookup, fetches only the attributes and enable URLs, and fetches the enable URL at most once |
| Printers.ConstructedServerChecks | ezprinting/printer.py:16-33 | for a printer on a server the constructor returns, the check makes no backend call iff it had to open the connection and that failed (and then raises that exception); otherwise it starts with the lookup for the server's backend |
| PrintJobs.DefaultOptions | ezprinting/print_job.py:37-43 | truthy options are kept verbatim; falsy ones become {"version":"1.0","print":{}} on GCP and {} on CUPS; they are left as given on a server with neither flag |
| PrintJobs.DefaultOptionsSettled | ezprinting/print_job.py:37-43 | defaulting is idempotent; a GCP job's options are always truthy; a CUPS job's options are truthy iff the caller's were |
| PrintJobs.NewJob | ezprinting/print_job.py:22-43 | a new job is fresh: job_id None, not submitted, state "DRAFT", gcp_last_message "", gcp_last_success None, no GCP response; it keeps printer, content, content type and title; options are defaulted per backend |
| PrintJobs.NewJobDefaults | ezprinting/print_job.py:17-23 | when omitted, the title is "A print job" and the content type is "application/pdf" |
| PrintJobs.NewCupsJob | ezprinting/print_job.py:85-91 | new_cups returns a fresh job iff the password is falsy; the job is on a CUPS-only server with the given host, a normalised user and the named printer; falsy options become {} |
| PrintJobs.NewGcpJob | ezprinting/print_job.py:93-99 | new_gcp returns a fresh job on a GCP-only server named "GCP" with the given printer id; a falsy ticket becomes {"version":"1.0","print":{}} |
| PrintJobs.Print | ezprinting/print_job.py:45-83 | print() never changes printer, content, content type, title or options, and never resets submitted; it makes no call exactly when the server has neither flag or the connection cannot be created, and then the job is unchanged and the open_connection exception is raised (RuntimeError("Server type error!") with neither flag); once connected it is exactly the CUPS branch on a CUPS server and exactly the GCP branch on a GCP server |
| PrintJobs.CupsAttempt | ezprinting/print_job.py:49-53 | one CUPS attempt is four calls: createJob(id, title, options) first, then a startDocument for the id createJob returned, and finishDocument(id) last |
| PrintJobs.PrintCups | ezprinting/print_job.py:48-56 | calls in order: createJob(id, title, options), startDocument(id, created id, title, content type, 1), writeRequestData(content, len), finishDocument(id); job_id is the created id even when finishing fails; submitted iff it already was or the finish code is 0; then the state is QUEUED iff the write status is 100, else DRAFT; a nonzero finish leaves the state; it returns submitted; no other field changes |
| PrintJobs.SubmitRequest | ezprinting/print_job.py:60-69 | one POST to base URI + "/submit" with form fields printerid, title and ticket = serialise(options); the file part is named "content", with filename "content" and the job's content type |
| PrintJobs.SameRequestSamePost | ezprinting/print_job.py:60-69 | two jobs that agree on printer, content, content type, title and options send the identical POST, so a retried GCP print resends the same request |
| PrintJobs.PrintGcp | ezprinting/print_job.py:58-83 | exactly one POST; a raised POST or a non-200 status changes nothing; a non-200 returns the current gcp_last_success; a 200 sets submitted and records the response, whatever success says; a non-JSON body then raises JSONDecodeError and nothing else changes; a body without success raises that KeyError/TypeError with only the decoded body recorded besides; success is recorded and returned; id, state and message change only when success is truthy, and are then copied from job.id, job.semanticState.state.type and message; a truthy answer missing one of those raises KeyError or TypeError, keeping what was assigned before and changing no other field |
| PrintJobs.GcpStateUnchecked | ezprinting/print_job.py:76-79 | a 200 answer whose success is true sets the job's state to whatever value it names, one of the seven states or not; it sets id and message too, and returns True |
| PrintRetries.PrintRepeatedly | ezprinting/print_job.py:45-83 | repeated print() calls never change the request fields and never un-submit a job; each attempt makes at most four calls |
| PrintRetries.CupsPrintStep | ezprinting/print_job.py:45-56 | on CUPS, a fresh job is consistent: state DRAFT or QUEUED, an integer id once submitted, GCP fields untouched; a failed connect raises with the job unchanged and no call; otherwise print() keeps the job consistent, does not raise, and makes the four protocol calls |
| PrintRetries.CupsRetriesTrace | ezprinting/print_job.py:49-53 | across n CUPS attempts the trace is 4n calls; attempt i runs the full protocol with the id its own createJob returned |
| PrintRetries.CupsRetries | ezprinting/print_job.py:49-56 | after n CUPS attempts, job_id is the last created id; the job is submitted iff it was already or some attempt's finish code was 0; consistency is kept; the return value is submitted |
| PrintRetries.GcpPrintStep | ezprinting/print_job.py:58-83 | on GCP, a fresh job is consistent (submitted iff a 200 answer is recorded; unsubmitted jobs hold no id, DRAFT state, no success and an empty message); one print() keeps it so whatever the answer, and sends the submit POST once or makes no call |
| PrintRetries.GcpRetries | ezprinting/print_job.py:58-83 | across n GCP attempts every call is the same submit POST, at most n of them, and GCP consistency is kept |

## Left out

- Real backend I/O is out. That covers the pycups `Connection` methods, the
  authorised HTTP session, and the bodies of `get_printer_attributes` and
  `enable_printer`. Their results, returned or raised, are inputs:
  `Backend`, `connect`, `cupsLookup`, `gcpFirst`/`gcpEnable`/`gcpSecond`,
  `cupsConnect`/`gcpSearch`.
- `get_printers` is out. It only forwards a backend listing.
- Credentials are out: loading the service account and building the
  OAuth credentials. `PrintServer.gcp` receives the account already decoded.
- JSON handling is out. `json.dumps` of the ticket is the opaque `serialise`
  parameter. A decoded body is a `Value`, and an undecodable submit body is
  `None`. A dict is a map, so key order, which json.dumps would show, is not
  modelled.
- The global CUPS settings are out: `cups.setServer`, `setUser` and
  `setPasswordCB`. Opening a connection only yields a token naming the
  backend.
- Exceptions raised inside the CUPS protocol steps of `print()` are out. A
  CUPS print attempt whose connection opens is modelled as always reaching
  `finishDocument`. A failed JSON decoding of a GCP attribute lookup is
  folded into that lookup's raised outcome.
- CupsRetriesTrace and CupsRetries require every attempt's connection to
  open. A failed connect raises and ends the sequence, which
  `PrintRetries.PrintRepeatedly` and `CupsPrintStep` state.
- Closing the GCP session in `test_connection` is out, as is any other
  resource lifetime.
- The `gcp_submit_response` attribute holds the status and decoded body of
  the reply, not the whole response object.
- Titles, content types, printer ids and server names are strings. Content
  is bytes. The Python code would accept any value there.
- Exception texts are the `str(e)` Python gives. The exact wording of
  TypeError and JSONDecodeError messages is approximate.

=== FILE: print_job.dfy ===
/**
 A print job and its submission to either backend.

 `Print` is the job's `print()` as a pure transition: it takes the job, the
 responses the backend gives (a `Backend` record) and the JSON serialiser for
 the ticket, and yields the updated job, the ordered backend calls and what
 `print()` returned or raised. Fields assigned before an exception keep their
 new values, as they do on the Python object.
 */
module PrintJobs {
  import opened Values
  import opened PrintServers
  import opened Printers

  const STATE0_DRAFT := "DRAFT"
  const STATE1_HELD := "HELD"
  const STATE2_QUEUED := "QUEUED"
  const STATE3_IN_PROGRESS := "IN_PROGRESS"
  const STATE4_STOPPED := "STOPPED"
  const STATE5_DONE := "DONE"
  const STATE6_ABORTED := "ABORTED"

  const GENERIC_TITLE := "A print job"
  const DEFAULT_CONTENT_TYPE := "application/pdf"

  /** The `writeRequestData` status that means the spooler took all the data (HTTP 100 Continue). */
  const HTTP_CONTINUE := 100
  /** The `finishDocument` status that means success (IPP successful-ok). */
  const IPP_OK := 0
  const HTTP_OK := 200

  const SUBMIT_URL := GCP_BASE_URI + "/submit"
  /** The file name of the uploaded part: fixed and without extension, so it implies no content type. */
  const CONTENT_FILENAME := "content"
  /** Where the accepted job's state sits in a GCP submit answer. */
  const STATE_PATH := ["job", "semanticState", "state", "type"]

  const GCP_DEFAULT_OPTIONS := Dict(map["version" := Str("1.0"), "print" := Dict(map[])])
  const CUPS_DEFAULT_OPTIONS := Dict(map[])

  /** The HTTP answer to the GCP submit request; `content` is `None` when the body is not JSON. */
  datatype HttpReply = HttpReply(status: int, content: Option<Value>)

  /**
   What the backend answers during one `print()`: whether creating the
   connection succeeded, the CUPS job id from `createJob`, the
   `writeRequestData` status, the `finishDocument` status, and the GCP submit
   request's reply (or the exception the request raised).
   */
  datatype Backend = Backend(
    connect: Outcome<()>,
    createdJobId: int,
    writeStatus: int,
    finishStatus: int,
    submitReply: Outcome<HttpReply>)

  /** The file part of a multipart upload: form field, file name, data and declared content type. */
  datatype FilePart = FilePart(field: string, filename: string, data: seq<byte>, contentType: string)

  /** A call on the backend connection, with its arguments. */
  datatype Call =
    | CreateJob(printer: string, title: string, options: Value)
    | StartDocument(printer: string, jobId: int, docName: string, format: string, lastDocument: int)
    | WriteRequestData(data: seq<byte>, length: int)
    | FinishDocument(printer: string)
    | Post(url: string, form: seq<(string, string)>, file: FilePart)

  datatype PrintJob = PrintJob(
    printer: Printer,
    content: seq<byte>,
    contentType: string,
    title: string,
    options: Value,
    jobId: Value,
    submitted: bool,
    gcpSubmitResponse: Option<HttpReply>,
    gcpSubmitResponseContent: Value,
    gcpLastMessage: Value,
    gcpLastSuccess: Value,
    state: Value)

  /** The job as its constructor leaves it: nothing submitted, no id, state DRAFT, no GCP answer. */
  predicate Fresh(job: PrintJob) {
    && job.jobId == Null
    && !job.submitted
    && job.gcpSubmitResponse == None
    && job.gcpSubmitResponseContent == Null
    && job.gcpLastMessage == Str("")
    && job.gcpLastSuccess == Null
    && job.state == Str(STATE0_DRAFT)
  }

  /** The two jobs ask for the same thing: same printer, content, content type, title and options. */
  predicate SameRequest(a: PrintJob, b: PrintJob) {
    && a.printer == b.printer
    && a.content == b.content
    && a.contentType == b.contentType
    && a.title == b.title
    && a.options == b.options
  }

  /** The options a job ends up with: falsy options take the backend's default, truthy ones are kept. */
  function DefaultOptions(server: PrintServer, options: Value): (r: Value)
    ensures Truthy(options) ==> r == options
    ensures !Truthy(options) && server.isGcp ==> r == GCP_DEFAULT_OPTIONS
    ensures !Truthy(options) && !server.isGcp && server.isCups ==> r == CUPS_DEFAULT_OPTIONS
    ensures !server.isGcp && !server.isCups ==> r == options
  {
    if !Truthy(options) then
      if server.isGcp then GCP_DEFAULT_OPTIONS
      else if server.isCups then CUPS_DEFAULT_OPTIONS
      else options
    else options
  }

  /** Defaulting twice changes nothing more, and a GCP job's options are never falsy. */
  lemma DefaultOptionsSettled(server: PrintServer, options: Value)
    ensures DefaultOptions(server, DefaultOptions(server, options)) == DefaultOptions(server, options)
    ensures server.isGcp ==> Truthy(DefaultOptions(server, options))
    ensures server.isCups && !server.isGcp ==>
      (Truthy(DefaultOptions(server, options)) <==> Truthy(options))
  {
    assert "version" in GCP_DEFAULT_OPTIONS.entries;
  }

  /** `PrintJob(printer, content, content_type, title, options)`, with the defaults of `PrintJob.__init__`. */
  function NewJob(printer: Printer, content: seq<byte>, contentType: string := DEFAULT_CONTENT_TYPE,
                  title: string := GENERIC_TITLE, options: Value := Null): (job: PrintJob)
    ensures Fresh(job)
    ensures job.printer == printer && job.content == content
    ensures job.contentType == contentType && job.title == title
    ensures Truthy(options) ==> job.options == options
    ensures !Truthy(options) && printer.server.isGcp ==> job.options == GCP_DEFAULT_OPTIONS
    ensures !Truthy(options) && printer.server.isCups && !printer.server.isGcp ==> job.options == CUPS_DEFAULT_OPTIONS
  {
    PrintJob(printer, content, contentType, title, DefaultOptions(printer.server, options),
             Null, false, None, Null, Str(""), Null, Str(STATE0_DRAFT))
  }

  /** A job built without content type or title gets "application/pdf" and "A print job". */
  lemma NewJobDefaults(printer: Printer, content: seq<byte>)
    ensures NewJob(printer, content).contentType == "application/pdf"
    ensures NewJob(printer, content).title == "A print job"
    ensures NewJob(printer, content).options == DefaultOptions(printer.server, Null)
  {
  }

  /**
   `PrintJob.new_cups`: a CUPS server from host and credentials, a printer by
   name, and a job on it. It raises exactly when the CUPS server does.
   */
  function NewCupsJob(printerName: string, content: seq<byte>, contentType: string := DEFAULT_CONTENT_TYPE,
                      host: Value := Str(DEFAULT_CUPS_HOST), username: Value := Null, password: Value := Null,
                      title: string := GENERIC_TITLE, options: Value := Null): (r: Outcome<PrintJob>)
    ensures r.Returned? <==> !Truthy(password)
    ensures r.Returned? ==>
      && Fresh(r.value)
      && r.value.printer.server.isCups && !r.value.printer.server.isGcp
      && r.value.printer.server.cupsHost == host
      && r.value.printer.server.cupsUser == Normalised(username)
      && r.value.printer.id == printerName
      && r.value.content == content && r.value.contentType == contentType && r.value.title == title
      && r.value.options == (if Truthy(options) then options else CUPS_DEFAULT_OPTIONS)
  {
    var server :- Cups(host, username, password);
    Returned(NewJob(NewPrinter(server, printerName), content, contentType, title, options))
  }

  /**
   `PrintJob.new_gcp`: a GCP server named "GCP" from the (already decoded)
   service account, a printer by id, and a job whose options are the ticket.
   */
  function NewGcpJob(serviceAccount: Value, printerId: string, content: seq<byte>,
                     contentType: string := DEFAULT_CONTENT_TYPE, title: string := GENERIC_TITLE,
                     ticket: Value := Null): (job: PrintJob)
    ensures Fresh(job)
    ensures job.printer.server.isGcp && !job.printer.server.isCups
    ensures job.printer.server.name == "GCP" && job.printer.server.serviceAccount == serviceAccount
    ensures job.printer.id == printerId
    ensures job.content == content && job.contentType == contentType && job.title == title
    ensures job.options == (if Truthy(ticket) then ticket else GCP_DEFAULT_OPTIONS)
  {
    NewJob(NewPrinter(Gcp(serviceAccount, "GCP"), printerId), content, contentType, title, ticket)
  }

  /** The updated job, the calls made on the connection in order, and what `print()` returned or raised. */
  datatype PrintResult = PrintResult(job: PrintJob, trace: seq<Call>, outcome: Outcome<Value>)

  /**
   `print()`: open a connection from the job's server, then run the CUPS
   protocol or the GCP submit request. A server with neither flag, or a
   backend whose connection cannot be created, raises when the connection is
   opened, before any call and with the job unchanged.
   */
  function Print(job: PrintJob, backend: Backend, serialise: Value -> string): (r: PrintResult)
    ensures SameRequest(job, r.job)
    ensures job.submitted ==> r.job.submitted
    ensures r.trace == [] <==> (!job.printer.server.isCups && !job.printer.server.isGcp) || backend.connect.Raised?
    ensures r.trace == [] ==> r.job == job && r.outcome == Raised(OpenConnection(job.printer.server, backend.connect).exc)
    ensures !job.printer.server.isCups && !job.printer.server.isGcp ==>
      r.outcome == Raised(Exception(RuntimeError, "Server type error!"))
    ensures backend.connect.Returned? && job.printer.server.isCups ==> r == PrintCups(job, backend)
    ensures backend.connect.Returned? && !job.printer.server.isCups && job.printer.server.isGcp ==>
      r == PrintGcp(job, backend.submitReply, serialise)
  {
    match OpenConnection(job.printer.server, backend.connect)
    case Raised(e) => PrintResult(job, [], Raised(e))
    case Returned(_) =>
      if job.printer.server.isCups then PrintCups(job, backend)
      else if job.printer.server.isGcp then PrintGcp(job, backend.submitReply, serialise)
      else PrintResult(job, [], Returned(Null))
  }

  /**
   The calls of one CUPS attempt, for the job id that attempt's `createJob`
   returned: create the job, start its one document, write the whole content,
   finish.
   */
  function CupsAttempt(job: PrintJob, createdJobId: int): (calls: seq<Call>)
    ensures |calls| == 4
    ensures calls[0] == CreateJob(job.printer.id, job.title, job.options)
    ensures calls[1].StartDocument? && calls[1].jobId == createdJobId
    ensures calls[3] == FinishDocument(job.printer.id)
  {
    [ CreateJob(job.printer.id, job.title, job.options),
      StartDocument(job.printer.id, createdJobId, job.title, job.contentType, 1),
      WriteRequestData(job.content, |job.content|),
      FinishDocument(job.printer.id) ]
  }

  /**
   The CUPS branch of `print()`: create a job, start its one document, write
   the whole content, finish. The job counts as submitted once finishing
   succeeds, and is QUEUED only if the write was fully accepted too.
   */
  function PrintCups(job: PrintJob, backend: Backend): (r: PrintResult)
    ensures r.trace == CupsAttempt(job, backend.createdJobId)
    ensures r.job.jobId == Int(backend.createdJobId)
    ensures r.job.submitted <==> job.submitted || backend.finishStatus == IPP_OK
    ensures backend.finishStatus == IPP_OK ==>
      && (r.job.state == Str(STATE2_QUEUED) || r.job.state == Str(STATE0_DRAFT))
      && (r.job.state == Str(STATE2_QUEUED) <==> backend.writeStatus == HTTP_CONTINUE)
    ensures backend.finishStatus != IPP_OK ==> r.job.state == job.state
    ensures r.outcome == Returned(Bool(r.job.submitted))
    ensures r.job == job.(jobId := r.job.jobId, submitted := r.job.submitted, state := r.job.state)
  {
    var trace := CupsAttempt(job, backend.createdJobId);
    var created := job.(jobId := Int(backend.createdJobId));
    var finished :=
      if backend.finishStatus == IPP_OK then
        created.(submitted := true,
                 state := Str(if backend.writeStatus == HTTP_CONTINUE then STATE2_QUEUED else STATE0_DRAFT))
      else created;
    PrintResult(finished, trace, Returned(Bool(finished.submitted)))
  }

  /** The multipart submit request: three form fields and the content as a file part. */
  function SubmitRequest(job: PrintJob, serialise: Value -> string): (call: Call)
    ensures call.Post? && call.url == GCP_BASE_URI + "/submit"
    ensures |call.form| == 3
    ensures call.form[0] == ("printerid", job.printer.id)
    ensures call.form[1] == ("title", job.title)
    ensures call.form[2] == ("ticket", serialise(job.options))
    ensures call.file == FilePart("content", "content", job.content, job.contentType)
  {
    Post(SUBMIT_URL,
         [("printerid", job.printer.id), ("title", job.title), ("ticket", serialise(job.options))],
         FilePart("content", CONTENT_FILENAME, job.content, job.contentType))
  }

  /** Two jobs that ask for the same thing send the identical submit request. */
  lemma SameRequestSamePost(a: PrintJob, b: PrintJob, serialise: Value -> string)
    requires SameRequest(a, b)
    ensures SubmitRequest(a, serialise) == SubmitRequest(b, serialise)
  {
  }

  /** The body of a GCP submit answer holds every field an accepted job is read from. */
  predicate CompleteAcceptance(body: Value) {
    && Path(body, ["job", "id"]).Returned?
    && Path(body, STATE_PATH).Returned?
    && Subscript(body, "message").Returned?
  }

  /**
   The GCP branch of `print()`. A 200 answer marks the job submitted and
   records `success`, whether or not `success` is truthy; only a truthy
   `success` copies the job id, the state (unchecked) and the message. The
   return value is the recorded `success`, also after a non-200 answer, which
   changes nothing.
   */
  function PrintGcp(job: PrintJob, reply: Outcome<HttpReply>, serialise: Value -> string): (r: PrintResult)
    ensures r.trace == [SubmitRequest(job, serialise)]
    ensures SameRequest(job, r.job)
    ensures reply.Raised? ==> r.job == job && r.outcome == Raised(reply.exc)
    ensures reply.Returned? && reply.value.status != HTTP_OK ==>
      r.job == job && r.outcome == Returned(job.gcpLastSuccess)
    ensures reply.Returned? && reply.value.status == HTTP_OK ==>
      r.job.submitted && r.job.gcpSubmitResponse == Some(reply.value)
    ensures r.job.submitted != job.submitted ==> reply.Returned? && reply.value.status == HTTP_OK
    ensures r.outcome.Returned? ==> r.outcome.value == r.job.gcpLastSuccess
    ensures r.job.jobId != job.jobId || r.job.state != job.state || r.job.gcpLastMessage != job.gcpLastMessage ==>
      Truthy(r.job.gcpLastSuccess)
    ensures (&& reply.Returned? && reply.value.status == HTTP_OK && reply.value.content.Some?
             && Subscript(reply.value.content.value, "success").Returned?) ==>
      var body := reply.value.content.value;
      && r.job.gcpSubmitResponseContent == body
      && r.job.gcpLastSuccess == body.entries["success"]
      && (!Truthy(body.entries["success"]) ==>
            r.job == job.(submitted := true, gcpSubmitResponse := Some(reply.value),
                          gcpSubmitResponseContent := body, gcpLastSuccess := body.entries["success"])
            && r.outcome == Returned(body.entries["success"]))
      && (Truthy(body.entries["success"]) && CompleteAcceptance(body) ==>
            && r.job.jobId == Path(body, ["job", "id"]).value
            && r.job.state == Path(body, STATE_PATH).value
            && r.job.gcpLastMessage == body.entries["message"]
            && r.outcome == Returned(body.entries["success"]))
    ensures reply.Returned? && reply.value.status == HTTP_OK && reply.value.content.None? ==>
      && r.job == job.(submitted := true, gcpSubmitResponse := Some(reply.value))
      && r.outcome.Raised? && r.outcome.exc.kind == JsonDecodeError
    ensures (&& reply.Returned? && reply.value.status == HTTP_OK && reply.value.content.Some?
             && Subscript(reply.value.content.value, "success").Raised?) ==>
      var body := reply.value.content.value;
      && r.job == job.(submitted := true, gcpSubmitResponse := Some(reply.value), gcpSubmitResponseContent := body)
      && r.outcome == Subscript(body, "success").PropagateFailure()
    ensures (&& reply.Returned? && reply.value.status == HTTP_OK && reply.value.content.Some?
             && Subscript(reply.value.content.value, "success").Returned?
             && Truthy(reply.value.content.value.entries["success"])
             && !CompleteAcceptance(reply.value.content.value)) ==>
      var body := reply.value.content.value;
      && r.outcome.Raised? && r.outcome.exc.kind in {KeyError, TypeError}
      && r.job == job.(submitted := true, gcpSubmitResponse := Some(reply.value), gcpSubmitResponseContent := body,
                       gcpLastSuccess := body.entries["success"], jobId := r.job.jobId, state := r.job.state)
      && (r.job.jobId != job.jobId ==> Path(body, ["job", "id"]).Returned?)
      && (r.job.state != job.state ==> Path(body, STATE_PATH).Returned?)
  {
    var trace := [SubmitRequest(job, serialise)];
    match reply
    case Raised(e) => PrintResult(job, trace, Raised(e))
    case Returned(response) =>
      if response.status != HTTP_OK then PrintResult(job, trace, Returned(job.gcpLastSuccess))
      else
        var answered := job.(submitted := true, gcpSubmitResponse := Some(response));
        match response.content
        case None => PrintResult(answered, trace, Raised(Exception(JsonDecodeError, "Expecting value")))
        case Some(body) =>
          var decoded := answered.(gcpSubmitResponseContent := body);
          match Subscript(body, "success")
          case Raised(e) => PrintResult(decoded, trace, Raised(e))
          case Returned(success) =>
            var recorded := decoded.(gcpLastSuccess := success);
            if !Truthy(success) then PrintResult(recorded, trace, Returned(success))
            else
              match Path(body, ["job", "id"])
              case Raised(e) => PrintResult(recorded, trace, Raised(e))
              case Returned(id) =>
                var identified := recorded.(jobId := id);
                match Path(body, STATE_PATH)
                case Raised(e) => PrintResult(identified, trace, Raised(e))
                case Returned(state) =>
                  var stated := identified.(state := state);
                  match Subscript(body, "message")
                  case Raised(e) => PrintResult(stated, trace, Raised(e))
                  case Returned(message) => PrintResult(stated.(gcpLastMessage := message), trace, Returned(success))
  }

  /** A GCP submit answer accepting a job with the given id, state and message. */
  function AcceptedBody(id: Value, state: Value, message: Value): (body: Value)
    ensures CompleteAcceptance(body)
  {
    Dict(map[
      "success" := Bool(true),
      "job" := Dict(map["id" := id, "semanticState" := Dict(map["state" := Dict(map["type" := state])])]),
      "message" := message])
  }

  /**
   The state a GCP answer names is copied into the job as it stands: any value
   at all, not only one of the seven job states, ends up as the job's state.
   */
  lemma GcpStateUnchecked(job: PrintJob, id: Value, state: Value, message: Value, serialise: Value -> string)
    requires job.printer.server.isGcp && !job.printer.server.isCups
    ensures
      var r := Print(job, Backend(Returned(()), 0, 0, 0, Returned(HttpReply(HTTP_OK, Some(AcceptedBody(id, state, message))))), serialise);
      && r.job.submitted
      && r.job.jobId == id
      && r.job.state == state
      && r.job.gcpLastMessage == message
      && r.outcome == Returned(Bool(true))
  {
  }
}

=== FILE: print_retries.dfy ===
/**
 A caller calling `print()` again on the same job, once per backend answer.

 `print()` never resets `submitted` and never touches the request fields. In
 this model a CUPS attempt raises only when its connection cannot be created,
 so when every connection opens the effect of any number of attempts is
 determined by the answers: the job is submitted iff some attempt finished
 its document, it keeps the job id the last attempt created, and it stays in
 the states the CUPS branch can produce. On GCP every attempt resends the
 same request, and the job never records an answer without being submitted.
 */
module PrintRetries {
  import opened Values
  import opened PrintServers
  import opened Printers
  import opened PrintJobs

  /**
   `print()` once per element of `backends`, in order, each attempt on the job
   the previous one left; an exception stops the sequence and is what the
   caller sees. The trace is the calls of all attempts made, in order.
   */
  function PrintRepeatedly(job: PrintJob, backends: seq<Backend>, serialise: Value -> string): (r: PrintResult)
    requires backends != []
    ensures SameRequest(job, r.job)
    ensures job.submitted ==> r.job.submitted
    ensures |r.trace| <= 4 * |backends|
    decreases |backends|
  {
    var first := Print(job, backends[0], serialise);
    if first.outcome.Raised? || |backends| == 1 then first
    else
      var rest := PrintRepeatedly(first.job, backends[1..], serialise);
      PrintResult(rest.job, first.trace + rest.trace, rest.outcome)
  }

  /** The states a job on a CUPS server can be in: DRAFT or QUEUED, an id once submitted, no GCP answer. */
  predicate CupsConsistent(job: PrintJob) {
    && (job.state == Str(STATE0_DRAFT) || job.state == Str(STATE2_QUEUED))
    && (job.submitted ==> job.jobId.Int?)
    && job.gcpSubmitResponse == None
    && job.gcpSubmitResponseContent == Null
    && job.gcpLastMessage == Str("")
    && job.gcpLastSuccess == Null
  }

  /**
   A fresh job on a CUPS server is consistent. One `print()` whose connection
   cannot be created raises and changes nothing; otherwise, in this model, it
   makes the four protocol calls, keeps the job consistent and does not raise.
   */
  lemma CupsPrintStep(job: PrintJob, backend: Backend, serialise: Value -> string)
    requires job.printer.server.isCups
    ensures Fresh(job) ==> CupsConsistent(job)
    ensures backend.connect.Raised? ==>
      Print(job, backend, serialise) == PrintResult(job, [], Raised(backend.connect.exc))
    ensures backend.connect.Returned? ==>
      var r := Print(job, backend, serialise);
      && r.trace == CupsAttempt(job, backend.createdJobId)
      && r.job.jobId == Int(backend.createdJobId)
      && (r.job.submitted <==> job.submitted || backend.finishStatus == IPP_OK)
      && (CupsConsistent(job) ==> CupsConsistent(r.job))
      && r.outcome == Returned(Bool(r.job.submitted))
  {
  }

  /** Unfolds one attempt of a CUPS retry sequence. */
  lemma CupsRetryUnfold(job: PrintJob, backends: seq<Backend>, serialise: Value -> string)
    requires job.printer.server.isCups
    requires |backends| > 1
    requires backends[0].connect.Returned?
    ensures
      var first := Print(job, backends[0], serialise);
      var rest := PrintRepeatedly(first.job, backends[1..], serialise);
      && first.job.printer == job.printer
      && PrintRepeatedly(job, backends, serialise) == PrintResult(rest.job, first.trace + rest.trace, rest.outcome)
  {
  }

  /** Jobs that ask for the same thing make the same CUPS calls for the same created id. */
  lemma SameAttempt(a: PrintJob, b: PrintJob, createdJobId: int)
    requires SameRequest(a, b)
    ensures CupsAttempt(a, createdJobId) == CupsAttempt(b, createdJobId)
  {
  }

  /** Block `i` of four calls behind a first block of four is block `i - 1` of the rest. */
  lemma AttemptBlockOfTail(first: seq<Call>, rest: seq<Call>, i: nat)
    requires |first| == 4 && 0 < i && 4 * i <= |rest|
    ensures (first + rest)[4 * i..4 * i + 4] == rest[4 * (i - 1)..4 * (i - 1) + 4]
  {
  }

  /** Every attempt of a CUPS retry sequence runs the whole four-call protocol for the job it created. */
  lemma {:induction false} CupsRetriesTrace(job: PrintJob, backends: seq<Backend>, serialise: Value -> string)
    requires job.printer.server.isCups
    requires backends != []
    requires forall i :: 0 <= i < |backends| ==> backends[i].connect.Returned?
    ensures
      var r := PrintRepeatedly(job, backends, serialise);
      && |r.trace| == 4 * |backends|
      && forall i :: 0 <= i < |backends| ==>
           r.trace[4 * i..4 * i + 4] == CupsAttempt(job, backends[i].createdJobId)
    decreases |backends|
  {
    CupsPrintStep(job, backends[0], serialise);
    if |backends| > 1 {
      var first := Print(job, backends[0], serialise);
      var tail := backends[1..];
      CupsRetryUnfold(job, backends, serialise);
      CupsRetriesTrace(first.job, tail, serialise);
      var rest := PrintRepeatedly(first.job, tail, serialise);
      var r := PrintRepeatedly(job, backends, serialise);
      assert r.trace == first.trace + rest.trace;
      assert |first.trace| == 4;
      forall i | 0 <= i < |backends|
        ensures r.trace[4 * i..4 * i + 4] == CupsAttempt(job, backends[i].createdJobId)
      {
        if i == 0 {
          assert r.trace[0..4] == first.trace;
        } else {
          assert backends[i] == tail[i - 1];
          SameAttempt(first.job, job, backends[i].createdJobId);
          AttemptBlockOfTail(first.trace, rest.trace, i);
        }
      }
    }
  }

  /**
   Any number of `print()` calls on a CUPS job: the job ends up holding the id
   of the last created job, it is submitted iff it was already or some attempt
   finished its document successfully, and it stays consistent.
   */
  lemma {:induction false} CupsRetries(job: PrintJob, backends: seq<Backend>, serialise: Value -> string)
    requires job.printer.server.isCups
    requires backends != []
    requires forall i :: 0 <= i < |backends| ==> backends[i].connect.Returned?
    ensures
      var r := PrintRepeatedly(job, backends, serialise);
      && r.job.jobId == Int(backends[|backends| - 1].createdJobId)
      && (r.job.submitted <==>
            job.submitted || exists i :: 0 <= i < |backends| && backends[i].finishStatus == IPP_OK)
      && (CupsConsistent(job) ==> CupsConsistent(r.job))
      && r.outcome == Returned(Bool(r.job.submitted))
    decreases |backends|
  {
    CupsPrintStep(job, backends[0], serialise);
    if |backends| > 1 {
      var first := Print(job, backends[0], serialise);
      var tail := backends[1..];
      CupsRetryUnfold(job, backends, serialise);
      CupsRetries(first.job, tail, serialise);
      assert backends[|backends| - 1] == tail[|tail| - 1];
      if exists i :: 0 <= i < |tail| && tail[i].finishStatus == IPP_OK {
        var i :| 0 <= i < |tail| && tail[i].finishStatus == IPP_OK;
        assert backends[i + 1] == tail[i];
      }
      if exists i :: 0 <= i < |backends| && backends[i].finishStatus == IPP_OK {
        var i :| 0 <= i < |backends| && backends[i].finishStatus == IPP_OK;
        if i > 0 {
          assert tail[i - 1] == backends[i];
        }
      }
    }
  }

  /**
   What a GCP job keeps true across `print()` calls: it is submitted exactly
   when a submit answer is recorded, that answer is a 200, and until then no
   id, state, success or message has been taken from any answer.
   */
  predicate GcpConsistent(job: PrintJob) {
    && (job.submitted <==> job.gcpSubmitResponse.Some?)
    && (job.gcpSubmitResponse.Some? ==> job.gcpSubmitResponse.value.status == HTTP_OK)
    && (!job.submitted ==>
          && job.jobId == Null
          && job.state == Str(STATE0_DRAFT)
          && job.gcpSubmitResponseContent == Null
          && job.gcpLastSuccess == Null
          && job.gcpLastMessage == Str(""))
  }

  /**
   A fresh job is GCP-consistent, and one `print()` on a GCP server keeps it
   so, whatever the answer (including a raised request, a non-JSON body or a
   body missing fields). The attempt sends the submit request once, or makes
   no call when the connection cannot be created.
   */
  lemma GcpPrintStep(job: PrintJob, backend: Backend, serialise: Value -> string)
    requires job.printer.server.isGcp && !job.printer.server.isCups
    ensures Fresh(job) ==> GcpConsistent(job)
    ensures
      var r := Print(job, backend, serialise);
      && (GcpConsistent(job) ==> GcpConsistent(r.job))
      && (r.trace == [] || r.trace == [SubmitRequest(job, serialise)])
  {
  }

  /**
   Any number of `print()` calls on a GCP job: every call made is the same
   submit request, at most one per attempt, and the job stays GCP-consistent.
   */
  lemma {:induction false} GcpRetries(job: PrintJob, backends: seq<Backend>, serialise: Value -> string)
    requires job.printer.server.isGcp && !job.printer.server.isCups
    requires backends != []
    ensures
      var r := PrintRepeatedly(job, backends, serialise);
      && |r.trace| <= |backends|
      && (forall i :: 0 <= i < |r.trace| ==> r.trace[i] == SubmitRequest(job, serialise))
      && (GcpConsistent(job) ==> GcpConsistent(r.job))
    decreases |backends|
  {
    var first := Print(job, backends[0], serialise);
    GcpPrintStep(job, backends[0], serialise);
    if !first.outcome.Raised? && |backends| > 1 {
      var tail := backends[1..];
      GcpRetries(first.job, tail, serialise);
      SameRequestSamePost(job, first.job, serialise);
      var rest := PrintRepeatedly(first.job, tail, serialise);
      var r := PrintRepeatedly(job, backends, serialise);
      assert r.trace == first.trace + rest.trace;
      forall i | 0 <= i < |r.trace|
        ensures r.trace[i] == SubmitRequest(job, serialise)
      {
        if i >= |first.trace| {
          assert r.trace[i] == rest.trace[i - |first.trace|];
        }
      }
    }
  }
}

=== FILE: print_server.dfy ===
/**
 A print server handle: either a CUPS spooler or a Google Cloud Print account.

 The constructor sets exactly one of the two backend flags or raises, and
 everything downstream (opening a connection, testing it, printing) dispatches
 on those flags. The connection itself is opaque: opening one yields a token
 naming the backend, and the outcome of talking to the backend is an input.
 */
module PrintServers {
  import opened Values

  const SERVER_TYPE_CUPS := "CUPS"
  const SERVER_TYPE_GOOGLE_CLOUD_PRINT := "GCP"
  const PRINT_SERVER_GENERIC_NAME := "A Print Server"
  const DEFAULT_CUPS_HOST := "localhost:631"
  const GCP_BASE_URI := "https://www.google.com/cloudprint"
  const CONNECTION_OK := "Connection OK!"

  /**
   A constructed server. Attributes the constructor never assigns on a path
   (the CUPS credentials of a GCP server, the service account of a CUPS server)
   hold `Null`.
   */
  datatype PrintServer = PrintServer(
    name: string,
    serverType: string,
    isCups: bool,
    isGcp: bool,
    cupsHost: Value,
    cupsUser: Value,
    cupsPasswd: Value,
    serviceAccount: Value)

  /** Exactly one backend flag is set. */
  predicate Valid(s: PrintServer) {
    s.isCups != s.isGcp
  }

  /** Replaces a falsy credential by the empty string. */
  function Normalised(credential: Value): (r: Value)
    ensures Truthy(credential) ==> r == credential
    ensures !Truthy(credential) ==> r == Str("")
  {
    if Truthy(credential) then credential else Str("")
  }

  /** The parameters are a dict holding the three CUPS entries the constructor reads. */
  predicate HasCupsParams(params: Value) {
    && params.Dict?
    && "cups_host" in params.entries
    && "cups_username" in params.entries
    && "cups_password" in params.entries
  }

  /**
   `PrintServer(name, server_type, params_dict)`. A CUPS server reads three
   entries of `params` and normalises the user name. The password line reads
   an attribute that is never assigned whenever the password is truthy, so
   such a construction raises AttributeError and every CUPS server that does
   get built holds the empty password.
   */
  function New(name: string, serverType: string, params: Value): (r: Outcome<PrintServer>)
    ensures r.Returned? ==> Valid(r.value) && r.value.name == name && r.value.serverType == serverType
    ensures r.Returned? ==> (r.value.isCups <==> serverType == SERVER_TYPE_CUPS)
    ensures r.Returned? ==> (r.value.isGcp <==> serverType == SERVER_TYPE_GOOGLE_CLOUD_PRINT)
    ensures serverType != SERVER_TYPE_CUPS && serverType != SERVER_TYPE_GOOGLE_CLOUD_PRINT ==>
      r == Raised(Exception(ValueError, "Invalid server_type."))
    ensures serverType == SERVER_TYPE_GOOGLE_CLOUD_PRINT ==> r.Returned? && r.value.serviceAccount == params
    ensures serverType == SERVER_TYPE_CUPS ==>
      (r.Returned? <==> HasCupsParams(params) && !Truthy(params.entries["cups_password"]))
    ensures r.Returned? && r.value.isCups ==>
      && r.value.cupsHost == params.entries["cups_host"]
      && r.value.cupsUser == Normalised(params.entries["cups_username"])
      && r.value.cupsPasswd == Str("")
    ensures serverType == SERVER_TYPE_CUPS && HasCupsParams(params) && Truthy(params.entries["cups_password"]) ==>
      r.Raised? && r.exc.kind == AttributeError
  {
    if serverType == SERVER_TYPE_CUPS then
      var host :- Subscript(params, "cups_host");
      var user :- Subscript(params, "cups_username");
      var passwd :- Subscript(params, "cups_password");
      if Truthy(passwd) then
        Raised(Exception(AttributeError, "'PrintServer' object has no attribute '_cups_password'"))
      else
        Returned(PrintServer(name, serverType, true, false, host, Normalised(user), Str(""), Null))
    else if serverType == SERVER_TYPE_GOOGLE_CLOUD_PRINT then
      Returned(PrintServer(name, serverType, false, true, Null, Null, Null, params))
    else
      Raised(Exception(ValueError, "Invalid server_type."))
  }

  /** The parameter dictionary the `cups` factory hands to the constructor. */
  function CupsParams(host: Value, username: Value, password: Value, name: string): Value {
    Dict(map["cups_host" := host, "cups_username" := username, "cups_password" := password, "name" := Str(name)])
  }

  /** `PrintServer.cups(host, username, password, name)`, with the defaults of `PrintServer.cups`. */
  function Cups(host: Value := Str(DEFAULT_CUPS_HOST), username: Value := Null, password: Value := Null,
                name: string := PRINT_SERVER_GENERIC_NAME): (r: Outcome<PrintServer>)
    ensures r.Returned? <==> !Truthy(password)
    ensures r.Raised? ==> r.exc.kind == AttributeError
    ensures r.Returned? ==>
      && r.value.isCups && !r.value.isGcp
      && r.value.name == name
      && r.value.cupsHost == host
      && r.value.cupsUser == Normalised(username)
      && r.value.cupsPasswd == Str("")
  {
    New(name, SERVER_TYPE_CUPS, CupsParams(host, username, password, name))
  }

  /** `PrintServer.gcp(service_account, name)`; the account text arrives already decoded. */
  function Gcp(serviceAccount: Value, name: string := PRINT_SERVER_GENERIC_NAME): (r: PrintServer)
    ensures r.isGcp && !r.isCups && r.name == name
    ensures r.serviceAccount == serviceAccount
  {
    New(name, SERVER_TYPE_GOOGLE_CLOUD_PRINT, serviceAccount).value
  }

  /** An opened backend connection: a CUPS connection or an authorised HTTP session. */
  datatype Connection = CupsConnection | GcpSession

  /**
   `open_connection`: dispatch on the flags, CUPS first; neither flag raises.
   `connect` is what creating the backend's connection object did (for CUPS,
   `cups.Connection()`, which raises RuntimeError when the spooler cannot be
   reached).
   */
  function OpenConnection(s: PrintServer, connect: Outcome<()>): (r: Outcome<Connection>)
    ensures !s.isCups && !s.isGcp ==> r == Raised(Exception(RuntimeError, "Server type error!"))
    ensures s.isCups || s.isGcp ==> (r.Returned? <==> connect.Returned?)
    ensures (s.isCups || s.isGcp) && r.Raised? ==> r.exc == connect.exc
    ensures r.Returned? ==> (r.value == CupsConnection <==> s.isCups)
  {
    if s.isCups then
      var _ :- connect;
      Returned(CupsConnection)
    else if s.isGcp then
      var _ :- connect;
      Returned(GcpSession)
    else
      Raised(Exception(RuntimeError, "Server type error!"))
  }

  /**
   No server the constructor returns can reach the "Server type error!"
   branch: opening its connection fails exactly when the backend's connect
   does, with the backend's exception.
   */
  lemma ConstructedServerOpens(name: string, serverType: string, params: Value, connect: Outcome<()>)
    requires New(name, serverType, params).Returned?
    ensures OpenConnection(New(name, serverType, params).value, connect).Raised? <==> connect.Raised?
    ensures connect.Raised? ==> OpenConnection(New(name, serverType, params).value, connect).exc == connect.exc
  {
  }

  /** Normalising a credential never yields None, keeps its truthiness, and is idempotent. */
  lemma NormalisedSettled(credential: Value)
    ensures Normalised(credential) != Null
    ensures Truthy(Normalised(credential)) <==> Truthy(credential)
    ensures Normalised(Normalised(credential)) == Normalised(credential)
  {
  }

  /** The answer of the GCP printer search that `test_connection` issues. */
  datatype SearchReply = SearchReply(ok: bool, reason: string)

  /**
   `test_connection`. `cupsConnect` is what creating the CUPS connection did,
   `gcpSearch` what opening the GCP session and issuing the search did. Only a
   RuntimeError is caught on the CUPS side; every exception is caught on the
   GCP side.
   */
  function TestConnection(s: PrintServer, cupsConnect: Outcome<()>, gcpSearch: Outcome<SearchReply>)
    : (r: Outcome<(bool, string)>)
    ensures r.Raised? <==> s.isCups && cupsConnect.Raised? && cupsConnect.exc.kind != RuntimeError
    ensures r.Raised? ==> r.exc == cupsConnect.exc
    ensures r.Returned? ==>
      (r.value.0 <==>
        if s.isCups then cupsConnect.Returned?
        else if s.isGcp then gcpSearch.Returned? && gcpSearch.value.ok
        else true)
    ensures r.Returned? && r.value.0 ==> r.value.1 == CONNECTION_OK
    ensures r.Returned? && !r.value.0 ==>
      r.value.1 ==
        if s.isCups then cupsConnect.exc.text
        else if gcpSearch.Raised? then gcpSearch.exc.text
        else gcpSearch.value.reason
  {
    if s.isCups then
      match OpenConnection(s, cupsConnect)
      case Returned(_) => Returned((true, CONNECTION_OK))
      case Raised(e) => if e.kind == RuntimeError then Returned((false, e.text)) else Raised(e)
    else if s.isGcp then
      match gcpSearch
      case Raised(e) => Returned((false, e.text))
      case Returned(reply) => if reply.ok then Returned((true, CONNECTION_OK)) else Returned((false, reply.reason))
    else
      Returned((true, CONNECTION_OK))
  }

  /**
   On every server the constructor returns, `test_connection` answers for the
   backend the server was built for: on a CUPS server it reports OK exactly
   when `open_connection` succeeds, on a GCP server exactly when the search is
   answered ok, and the other backend's outcome plays no part.
   */
  lemma ConstructedServerTest(name: string, serverType: string, params: Value,
                              cupsConnect: Outcome<()>, gcpSearch: Outcome<SearchReply>,
                              otherCups: Outcome<()>, otherSearch: Outcome<SearchReply>)
    requires New(name, serverType, params).Returned?
    ensures
      var s := New(name, serverType, params).value;
      var r := TestConnection(s, cupsConnect, gcpSearch);
      && (serverType == SERVER_TYPE_CUPS ==>
            && (r == Returned((true, CONNECTION_OK)) <==> OpenConnection(s, cupsConnect).Returned?)
            && TestConnection(s, cupsConnect, otherSearch) == r)
      && (serverType == SERVER_TYPE_GOOGLE_CLOUD_PRINT ==>
            && r.Returned?
            && (r.value.0 <==> gcpSearch.Returned? && gcpSearch.value.ok)
            && TestConnection(s, otherCups, gcpSearch) == r)
  {
  }
}

=== FILE: printer.dfy ===
/**
 A printer on a print server, identified by its CUPS queue name or its GCP
 printer id, and the rule that decides whether it exists.

 The attribute lookups and the enable request are backend calls whose results
 are inputs here; what is modelled is the order of the calls and how their
 results decide the answer.
 */
module Printers {
  import opened Values
  import opened PrintServers

  datatype Printer = Printer(server: PrintServer, id: string)

  /** `Printer(print_server, name_or_id)`: the name or id is kept verbatim as the printer's id. */
  function NewPrinter(server: PrintServer, nameOrId: string): (p: Printer)
    ensures p.server == server
    ensures p.id == nameOrId
  {
    Printer(server, nameOrId)
  }

  const ATTRIBUTES_URL_PREFIX := GCP_BASE_URI + "/printer?printerid="

  /** The GCP URL `get_printer_attributes` fetches for a printer id. */
  function AttributesUrl(id: string): (url: string)
    ensures |url| == |ATTRIBUTES_URL_PREFIX| + |id|
    ensures url[..|ATTRIBUTES_URL_PREFIX|] == ATTRIBUTES_URL_PREFIX
    ensures url[|ATTRIBUTES_URL_PREFIX|..] == id
  {
    ATTRIBUTES_URL_PREFIX + id
  }

  /** Reads the printer id back out of an attributes URL; `None` for any other string. */
  function PrinterIdOfUrl(url: string): (id: Option<string>)
    ensures id.Some? ==> ATTRIBUTES_URL_PREFIX <= url
  {
    if ATTRIBUTES_URL_PREFIX <= url then Some(url[|ATTRIBUTES_URL_PREFIX|..]) else None
  }

  /** The id a URL was built from is recovered from it. */
  lemma AttributesUrlRoundTrip(id: string)
    ensures PrinterIdOfUrl(AttributesUrl(id)) == Some(id)
  {
  }

  /** Every URL that names a printer id is the attributes URL of that id, so the URL is injective in the id. */
  lemma AttributesUrlOnly(url: string, id: string)
    requires PrinterIdOfUrl(url) == Some(id)
    ensures AttributesUrl(id) == url
  {
  }

  const ENABLE_URL_PREFIX := GCP_BASE_URI + "/processinvite?accept=true&printerid="

  /** The GCP URL `enable_printer` fetches to accept the printer's share invitation. */
  function EnableUrl(id: string): (url: string)
    ensures |url| == |ENABLE_URL_PREFIX| + |id|
    ensures url[..|ENABLE_URL_PREFIX|] == ENABLE_URL_PREFIX && url[|ENABLE_URL_PREFIX|..] == id
  {
    ENABLE_URL_PREFIX + id
  }

  /** Enabling and looking up a printer never fetch the same URL. */
  lemma EnableUrlIsNotAttributesUrl(id: string, other: string)
    ensures EnableUrl(id) != AttributesUrl(other)
  {
    assert EnableUrl(id)[|GCP_BASE_URI| + 3] == 'o';
    assert AttributesUrl(other)[|GCP_BASE_URI| + 3] == 'i';
  }

  /** The backend calls `check_printer_exists` makes: a CUPS attribute request by name, or a GCP GET of a URL. */
  datatype Step = GetPrinterAttributes(name: string) | Get(url: string)

  datatype ExistsResult = ExistsResult(trace: seq<Step>, answer: Outcome<Value>)

  /** `lookup['success']` of a GCP lookup that returned a decoded body; a raised lookup stays raised. */
  function SuccessOf(lookup: Outcome<Value>): (r: Outcome<Value>)
    ensures lookup.Raised? ==> r == Raised(lookup.exc)
    ensures lookup.Returned? ==> r == Subscript(lookup.value, "success")
  {
    var body :- lookup;
    Subscript(body, "success")
  }

  /**
   `check_printer_exists(conn)`. When no connection is passed one is opened
   from the server, and `connect` is what creating it did. `cupsLookup` is what
   the CUPS attribute request returned or raised. `gcpFirst` and `gcpSecond`
   are what the first and the (possible) second GCP attribute lookup returned
   (the decoded body) or raised, and `gcpEnable` what the enable request did.
   */
  function CheckPrinterExists(p: Printer, conn: Option<Connection>, connect: Outcome<()>,
                              cupsLookup: Outcome<Value>,
                              gcpFirst: Outcome<Value>, gcpEnable: Outcome<()>, gcpSecond: Outcome<Value>)
    : (r: ExistsResult)
    ensures conn.None? && OpenConnection(p.server, connect).Raised? ==>
      r == ExistsResult([], Raised(OpenConnection(p.server, connect).exc))
    ensures !p.server.isCups && !p.server.isGcp && conn.Some? ==> r == ExistsResult([], Returned(Null))
    ensures r.trace == [] <==>
      (!p.server.isCups && !p.server.isGcp) || (conn.None? && connect.Raised?)
    ensures p.server.isCups && r.trace != [] ==>
      && r.trace == [GetPrinterAttributes(p.id)]
      && r.answer == CupsExists(p.id, cupsLookup)
    ensures p.server.isCups && r.trace != [] && cupsLookup.Raised? && cupsLookup.exc.kind == IppError ==>
      r.answer == Returned(Bool(false))
    ensures (&& p.server.isCups && r.trace != [] && cupsLookup.Returned?
             && Subscript(cupsLookup.value, "printer-name").Returned?) ==>
      r.answer == Returned(Bool(cupsLookup.value.entries["printer-name"] == Str(p.id)))
    ensures !p.server.isCups && p.server.isGcp && r.trace != [] ==>
      r == GcpExists(p.id, gcpFirst, gcpEnable, gcpSecond)
  {
    var connected := if conn.Some? then Returned(conn.value) else OpenConnection(p.server, connect);
    match connected
    case Raised(e) => ExistsResult([], Raised(e))
    case Returned(_) =>
      if p.server.isCups then ExistsResult([GetPrinterAttributes(p.id)], CupsExists(p.id, cupsLookup))
      else if p.server.isGcp then GcpExists(p.id, gcpFirst, gcpEnable, gcpSecond)
      else ExistsResult([], Returned(Null))
  }

  /** The CUPS rule: an IPP error means "no"; otherwise the reported `printer-name` must equal the id. */
  function CupsExists(id: string, lookup: Outcome<Value>): (r: Outcome<Value>)
    ensures lookup.Raised? && lookup.exc.kind == IppError ==> r == Returned(Bool(false))
    ensures lookup.Returned? && Subscript(lookup.value, "printer-name").Returned? ==>
      r == Returned(Bool(lookup.value.entries["printer-name"] == Str(id)))
    ensures lookup.Raised? && lookup.exc.kind != IppError ==> r == Raised(lookup.exc)
    ensures lookup.Returned? && Subscript(lookup.value, "printer-name").Raised? ==>
      r == Subscript(lookup.value, "printer-name").PropagateFailure()
    ensures r.Returned? ==> r.value.Bool?
    ensures r.Raised? ==>
      if lookup.Raised? then r.exc == lookup.exc && lookup.exc.kind != IppError
      else r == Subscript(lookup.value, "printer-name").PropagateFailure()
  {
    match lookup
    case Raised(e) => if e.kind == IppError then Returned(Bool(false)) else Raised(e)
    case Returned(attributes) =>
      var name :- Subscript(attributes, "printer-name");
      Returned(Bool(name == Str(id)))
  }

  /**
   The GCP rule: look the printer up; if the answer's `success` is falsy, enable
   the printer (accept its invitation) and look it up once more. The answer is
   the `success` of the last lookup performed; an exception from a lookup or
   from the enable request propagates.
   */
  function GcpExists(id: string, first: Outcome<Value>, enable: Outcome<()>, second: Outcome<Value>)
    : (r: ExistsResult)
    ensures
      || r.trace == [Get(AttributesUrl(id))]
      || r.trace == [Get(AttributesUrl(id)), Get(EnableUrl(id))]
      || r.trace == [Get(AttributesUrl(id)), Get(EnableUrl(id)), Get(AttributesUrl(id))]
    ensures Get(EnableUrl(id)) in r.trace <==>
      SuccessOf(first).Returned? && !Truthy(SuccessOf(first).value)
    ensures |r.trace| == 1 ==> r.answer == SuccessOf(first)
    ensures |r.trace| == 2 ==> enable.Raised? && r.answer == Raised(enable.exc)
    ensures |r.trace| == 3 ==> enable.Returned? && r.answer == SuccessOf(second)
  {
    var lookup := Get(AttributesUrl(id));
    match SuccessOf(first)
    case Raised(e) => ExistsResult([lookup], Raised(e))
    case Returned(success) =>
      if Truthy(success) then ExistsResult([lookup], Returned(success))
      else
        match enable
        case Raised(e) => ExistsResult([lookup, Get(EnableUrl(id))], Raised(e))
        case Returned(_) => ExistsResult([lookup, Get(EnableUrl(id)), lookup], SuccessOf(second))
  }

  /**
   On a GCP printer the enable request is made at most once, and only after a
   lookup: every GET is either the printer's attributes URL or its enable URL,
   and the enable URL occurs at most once.
   */
  lemma GcpEnablesAtMostOnce(id: string, first: Outcome<Value>, enable: Outcome<()>, second: Outcome<Value>)
    ensures
      var r := GcpExists(id, first, enable, second);
      && r.trace[0] == Get(AttributesUrl(id))
      && multiset(r.trace)[Get(EnableUrl(id))] <= 1
      && forall i :: 0 <= i < |r.trace| ==> r.trace[i] in {Get(AttributesUrl(id)), Get(EnableUrl(id))}
  {
    EnableUrlIsNotAttributesUrl(id, id);
  }

  /**
   On every printer whose server the constructor returned, `check_printer_exists`
   never takes the branch for a server with neither flag: it always makes the
   lookup of the server's backend unless opening the connection itself failed.
   */
  lemma ConstructedServerChecks(name: string, serverType: string, params: Value, id: string,
                                conn: Option<Connection>, connect: Outcome<()>, cupsLookup: Outcome<Value>,
                                gcpFirst: Outcome<Value>, gcpEnable: Outcome<()>, gcpSecond: Outcome<Value>)
    requires New(name, serverType, params).Returned?
    ensures
      var p := NewPrinter(New(name, serverType, params).value, id);
      var r := CheckPrinterExists(p, conn, connect, cupsLookup, gcpFirst, gcpEnable, gcpSecond);
      && (r.trace == [] <==> conn.None? && connect.Raised?)
      && (r.trace == [] ==> r.answer == Raised(connect.exc))
      && (serverType == SERVER_TYPE_CUPS && r.trace != [] ==> r.trace == [GetPrinterAttributes(id)])
      && (serverType == SERVER_TYPE_GOOGLE_CLOUD_PRINT && r.trace != [] ==> r.trace[0] == Get(AttributesUrl(id)))
  {
  }
}

=== FILE: values.dfy ===
/**
 The Python values and exceptions that flow through the print client.

 The client is dynamically typed: options, decoded JSON bodies, credentials and
 the fields of a job hold whatever value the caller or the backend supplied.
 `Value` is the JSON-shaped subset of Python values those places can hold, and
 `Outcome` is a call that either returns a value or raises an exception.
 */
module Values {

  newtype byte = x: int | 0 <= x < 256

  datatype Option<+T> = None | Some(value: T)

  /** A JSON-shaped Python value; `Null` is Python's `None`. */
  datatype Value =
    | Null
    | Bool(b: bool)
    | Int(i: int)
    | Str(s: string)
    | List(items: seq<Value>)
    | Dict(entries: map<string, Value>)

  /** Python truthiness: `None`, `False`, `0`, `""`, `[]` and `{}` are falsy, everything else is truthy. */
  predicate Truthy(v: Value) {
    match v
    case Null => false
    case Bool(b) => b
    case Int(i) => i != 0
    case Str(s) => s != ""
    case List(items) => items != []
    case Dict(entries) => entries != map[]
  }

  /** The exception classes the client raises or catches. */
  datatype ExceptionKind =
    | ValueError
    | RuntimeError
    | KeyError
    | TypeError
    | AttributeError
    | JsonDecodeError
    | IppError
    | TransportError

  /** An exception; `text` is what `str(e)` yields for it. */
  datatype Exception = Exception(kind: ExceptionKind, text: string)

  /** The result of a Python call: it returns a value or raises. */
  datatype Outcome<+T> = Returned(value: T) | Raised(exc: Exception) {

    predicate IsFailure() {
      Raised?
    }

    function PropagateFailure<U>(): Outcome<U>
      requires Raised?
    {
      Raised(exc)
    }

    function Extract(): T
      requires Returned?
    {
      value
    }
  }

  /** What Python says when a non-dict value is indexed with a string key. */
  function NotSubscriptable(v: Value): string {
    match v
    case Null => "'NoneType' object is not subscriptable"
    case Bool(_) => "'bool' object is not subscriptable"
    case Int(_) => "'int' object is not subscriptable"
    case Str(_) => "string indices must be integers"
    case List(_) => "list indices must be integers or slices, not str"
    case Dict(_) => ""
  }

  /** `v[key]`: a dict returns the entry or raises KeyError, every other value raises TypeError. */
  function Subscript(v: Value, key: string): (r: Outcome<Value>)
    ensures r.Returned? <==> v.Dict? && key in v.entries
    ensures r.Returned? ==> r.value == v.entries[key]
    ensures r.Raised? ==> r.exc.kind == (if v.Dict? then KeyError else TypeError)
  {
    match v
    case Dict(entries) =>
      if key in entries then Returned(entries[key]) else Raised(Exception(KeyError, "'" + key + "'"))
    case _ => Raised(Exception(TypeError, NotSubscriptable(v)))
  }

  /** `v[k0][k1]...`: the keys applied left to right; the first failing subscript raises. */
  function Path(v: Value, keys: seq<string>): (r: Outcome<Value>)
    ensures keys == [] ==> r == Returned(v)
    ensures |keys| == 1 ==> r == Subscript(v, keys[0])
    ensures r.Returned? && keys != [] ==> v.Dict? && keys[0] in v.entries
    decreases |keys|
  {
    if keys == [] then Returned(v)
    else
      var child :- Subscript(v, keys[0]);
      Path(child, keys[1..])
  }

  /** Following `a + b` is following `a`, then following `b` from where `a` ended; a failure in `a` is final. */
  lemma {:induction false} PathConcat(v: Value, a: seq<string>, b: seq<string>)
    ensures Path(v, a + b) ==
      (match Path(v, a)
       case Returned(w) => Path(w, b)
       case Raised(e) => Raised(e))
    decreases |a|
  {
    if a == [] {
      assert a + b == b;
    } else {
      assert (a + b)[0] == a[0];
      assert (a + b)[1..] == a[1..] + b;
      match Subscript(v, a[0])
      case Returned(child) =>
        PathConcat(child, a[1..], b);
      case Raised(_) =>
    }
  }

  /** A path of one or more keys returns the entry at its end: a path through nested dicts reaches the innermost value. */
  lemma {:induction false} PathThroughDicts(v: Value, keys: seq<string>, k: string)
    requires Path(v, keys).Returned? && Path(v, keys).value.Dict? && k in Path(v, keys).value.entries
    ensures Path(v, keys + [k]) == Returned(Path(v, keys).value.entries[k])
  {
    PathConcat(v, keys, [k]);
  }
}
